=== FILE: README.md ===
# LoraStack persistence core in Dafny

A model of the credential and session persistence logic of LoraStack, a LoRaWAN
end-device library. The library sits between an LMIC-based MAC engine and a
key-value `ParameterStore`. Its job:

- It turns hex credentials into the byte layouts the engine expects.
- It gives AppEUI and DevEUI to the engine byte-reversed, but stores them in the order the user typed.
- It stores a DevAddr as the big-endian value of its bytes.
- It persists and reloads the engine's session record, checking its tag and size.
- It sequences `begin`, `provision` and `join`.
- It turns the engine's transmit completions into one-shot application callbacks.

Modules, one per component:

| file | module | models |
|---|---|---|
| `types.dfy` | `Types` | `uint8_t`/`uint32_t` widths, fixed-size byte fields, a fail-fast `Option` |
| `hex_codec.dfy` | `HexCodec` | `hexDigit`, `hexToBytes`, and a canonical hex encoder as their inverse |
| `byte_order.dfy` | `ByteOrder` | `reverseMem`, `ntohl` on a little-endian target, big-endian values |
| `parameter_store.dfy` | `ParameterStore` | the store as a map, `get`/`set`, chains of `set`s that stop at the first failure |
| `provisioning.dfy` | `Provisioning` | `provision`, `personalize`, `GetOtaaProvisioningInfo`, `GetAbpProvisioningInfo` |
| `session.dfy` | `Session` | `NetSaveSessionInfo`, `GetSavedSessionInfo`, `NetSaveFCntUp`, `NetSaveFCntDown` |
| `orchestrator.dfy` | `Orchestrator` | `begin`, both `join` overloads, `txCallback`, `sendBytes` |

Modelling choices:

- **The store** is an immutable `map<Key, Value>`.
  - The nine keys the firmware uses (`APPEUI` … `FCNTDN`) form an enumeration. `Key.Name()` gives each key's string.
  - A value is a byte array (`Blob`) or a 32-bit scalar (`Word`).
  - A `get` succeeds exactly when the key holds a value of the requested shape and size.
  - Whether a `set` succeeds depends on the storage medium. So every writing operation takes `rejects`: the keys whose `set` fails during that operation.
  - A refused `set` leaves its key unchanged.
- **C strings** are `seq<char>`. The string ends at the first NUL character or at the end of the sequence, whichever comes first.
- **`ntohl`** is modelled on a little-endian target (ARM), where it is a byte swap. `ByteOrder.NtohlOfLoad` shows that the stored DevAddr is the big-endian value of the parsed bytes. A big-endian target stores the same value.
- **The MAC engine** is represented only by its answers.
  - `begin`, `LMIC_startJoining` and `SendBuffer` take their answers as boolean parameters.
  - Every engine call is appended to `Stack.calls`, so contracts can state which calls were made.
- **Reads that answer `false`** are modelled as `None`. The firmware's partially filled output structure is then of no use to the engine, so its contents are not modelled.
- **`kSessionInfoTag_V1` and `sizeof(SessionInfoV1)`** are taken as 1 and 52. They come from the engine's session layout (4 one-byte header fields, NetID, DevAddr, two 16-byte keys, two 32-bit counters). That header is not part of this model.

Behaviour of the code worth knowing:

- `begin` is retried on every call until the engine answers `true`, not attempted once per process lifetime (`Orchestrator.BeginCallsEngineUntilSuccess`).
- Multi-key writes are not all-or-nothing on the store.
  - A session save that stops early, over a previously complete session, is read back as valid. The result mixes new and old fields (`Session.PartialSaveMixesSessions`).
  - It fails closed exactly when one of the keys the save did not reach (the refused one and those after it) was not loadable before (`Session.SaveLoadsIff`). So a store holding some session keys but no loadable session can still read back a mixed session. For example: a `personalize` whose NETID write was refused, then the counter fast path storing FCNTUP and FCNTDN, then a save that stops at DEVADDR.
  - On a store holding none of the six session keys, a partial save never loads (`Session.PartialSaveOnEmptyFailsClosed`).
- A session load does not check a stored tag or size: it fills them in with the V1 constants.
- Frame counters are not checked for monotonicity. `NetSaveFCntUp`/`NetSaveFCntDown` store any value.
- `provision` deletes nothing. The comment at src/LoraStack.cpp:288 says existing OTAA and ABP values are deleted if different, but the function only writes APPEUI, DEVEUI, APPKEY and NETID. After a successful `provision`, a previously stored ABP session still loads, with only NETID rewritten (`Orchestrator.ProvisionKeepsStoredSession`). The store interface the file uses has no delete operation, and the comment does not say what "different" compares, so no corrected `provision` is modelled.
- `sendBytes` never stores its callback (see Findings).

## Model

| member | source | states |
|---|---|---|
| HexCodec.HexDigit | src/LoraStack.cpp:225-236 | digits 0-9, A-F, a-f map below 16 and every other character to 16; a digit's value is the position of its upper-case spelling |
| HexCodec.HexToBytes | src/LoraStack.cpp:238-250 | succeeds iff the string is exactly 2*size hex characters followed by its end (short, odd, over-long or non-hex input fails); byte i is 16*digit(hex[2i]) + digit(hex[2i+1]) |
| HexCodec.DecodeEncode | src/LoraStack.cpp:238-250 | every byte string, spelled in hex, parses back to itself |
| HexCodec.EncodeDecode | src/LoraStack.cpp:238-250 | a parsed buffer re-spells the accepted input with only its letter case folded |
| ByteOrder.Reverse | src/LoraStack.cpp:34-44 | out[i] = in[n-1-i] for every index |
| ByteOrder.ReverseMem | src/LoraStack.cpp:34-44 | the two-cursor swap loop produces exactly the reversed buffer |
| ByteOrder.ReverseInvolution | src/LoraStack.cpp:34-44 | reversing twice gives back the buffer |
| ByteOrder.NtohlOfLoad | src/LoraStack.cpp:256-264 | `ntohl` of the four parsed bytes loaded into a `uint32_t` is their big-endian value |
| ParameterStore.Landed | src/LoraStack.cpp:150-173 | the writes before the first refused one all succeed, and the next one is refused |
| ParameterStore.WriteUntilFailure | src/LoraStack.cpp:150-173 | writes up to the first refusal land, that key and later ones keep their old values, and no other key changes |
| Provisioning.WriteOtaa | src/LoraStack.cpp:305-310 | all four sets are attempted; the result is true iff none of APPEUI, DEVEUI, APPKEY, NETID was refused; accepted keys hold the unreversed bytes and NETID 0x13; nothing else changes |
| Provisioning.Provision | src/LoraStack.cpp:284-311 | any parse failure returns false with the store unchanged; otherwise the four writes with the parsed bytes |
| Provisioning.WriteAbp | src/LoraStack.cpp:273-281 | all four sets are attempted; true iff none of DEVADDR, NWKSKEY, APPSKEY, NETID was refused; accepted keys hold the given values and NETID 0x13; nothing else changes |
| Provisioning.Personalize | src/LoraStack.cpp:252-282 | any parse failure returns false with no write; otherwise DEVADDR is written as the big-endian value of the parsed bytes, plus both keys and NETID |
| Provisioning.GetOtaaProvisioningInfo | src/LoraStack.cpp:46-65 | true iff the destination is non-null and all three reads succeed; AppEUI and DevEUI are the stored bytes reversed, AppKey as stored |
| Provisioning.GetAbpProvisioningInfo | src/LoraStack.cpp:67-101 | true iff NWKSKEY, APPSKEY, DEVADDR and NETID all read; the fields are the stored values; a readable frame counter is copied, an unreadable one is 0 and never affects the answer |
| Provisioning.OtaaRoundTrip | src/LoraStack.cpp:52-59 | after a successful `provision` the engine gets AppEUI/DevEUI reversed relative to the parsed hex and AppKey unreversed |
| Provisioning.OtaaStoredAsTyped | src/LoraStack.cpp:306-308 | after a successful `provision` the stored EUIs and key spell the typed hex (case folded); they are not reversed on disk |
| Provisioning.AbpRoundTrip | src/LoraStack.cpp:72-100 | after a successful `personalize` the ABP pull returns the parsed keys, the big-endian DevAddr, NetID 0x13 and the counters already stored (0 if absent) |
| Provisioning.DevAddrStoredAsTyped | src/LoraStack.cpp:260-274 | the stored DevAddr, written out in network byte order, spells the typed hex |
| Provisioning.AbpCountersBestEffort | src/LoraStack.cpp:89-100 | removing both counter keys changes neither success nor any field except the counters, which become 0 |
| Session.NetSaveSessionInfo | src/LoraStack.cpp:136-174 | a wrong tag or size writes nothing; otherwise the six keys are written in order up to the first refusal, later ones are untouched, and other keys never change |
| Session.GetSavedSessionInfo | src/LoraStack.cpp:104-134 | true iff all six keys read; every loaded field equals the stored value; the header carries the V1 tag and size and zero reserved bytes |
| Session.NetSaveFCntUp | src/LoraStack.cpp:175-182 | only FCNTUP changes, to the given value, and only if its write is accepted |
| Session.NetSaveFCntDown | src/LoraStack.cpp:183-190 | only FCNTDN changes, to the given value, and only if its write is accepted |
| Session.SessionRoundTrip | src/LoraStack.cpp:104-174 | after a save that no write refused, the load returns every persisted field equal to the saved one, with the header constants |
| Session.SchemaMismatchKeepsLoad | src/LoraStack.cpp:142-149 | a save with a wrong header does not change what the next load returns |
| Session.PartialSaveMixesSessions | src/LoraStack.cpp:150-173 | over a complete stored session, a save that stops early reads back new fields up to the refused write and old fields after it |
| Session.SaveLoadsIff | src/LoraStack.cpp:115-173 | after a V1 save, the next load fails iff one of the keys the save did not reach (the refused one or a later one) was not loadable before |
| Session.PartialSaveOnEmptyFailsClosed | src/LoraStack.cpp:115-132 | on a store holding none of the six session keys, a save that stops early is not read back as a session |
| Session.FCntUpReflectedInSession | src/LoraStack.cpp:175-182 | after the up-counter fast path, a session load shows the new counter and every other field unchanged |
| Session.FCntDownReflectedInSession | src/LoraStack.cpp:183-190 | the same for the down counter |
| Orchestrator.Begin | src/LoraStack.cpp:202-207 | once begun, answers true with no engine call; otherwise calls the engine once and adopts its answer |
| Orchestrator.BeginCallsEngineUntilSuccess | src/LoraStack.cpp:202-207 | over repeated calls, the engine's begin is called until it first succeeds and never after |
| Orchestrator.BegunIsStable | src/LoraStack.cpp:202-207 | after a successful begin, any further calls leave the state unchanged |
| Orchestrator.JoinProvisioned | src/LoraStack.cpp:218-223 | `LMIC_startJoining` is called iff `begin` succeeded; the result is true iff begun and the engine started joining |
| Orchestrator.Join | src/LoraStack.cpp:209-216 | a failed `provision` returns false and makes no engine call; a successful one continues with the provisioned join |
| Orchestrator.MalformedJoinTouchesNothing | src/LoraStack.cpp:209-216 | malformed hex changes neither the store nor the engine state |
| Orchestrator.TxCallback | src/LoraStack.cpp:313-320 | the slot is cleared, and the pending callback, if any, fires with the completion status |
| Orchestrator.CallbackFiresAtMostOnce | src/LoraStack.cpp:313-320 | over any number of completion signals, the pending callback fires once, with the first status |
| Orchestrator.SendBytesAsWritten | src/LoraStack.cpp:322-340 | forwards the payload to the engine and reports acceptance; the callback slot and `_begun` are left as they were |
| Orchestrator.SendBytesAsWrittenLosesCallback | src/LoraStack.cpp:322-340 | an accepted send's application callback never fires |
| Orchestrator.SendBytes | src/LoraStack.cpp:322-340 | corrected: every send puts its callback in the single slot before the engine call, overwriting any pending one; the response reports whether the engine accepted |
| Orchestrator.SendThenCompleteFiresOnce | src/LoraStack.cpp:313-340 | corrected: a send's callback fires exactly once, with the first completion's status |
| Orchestrator.SecondSendOverwritesPending | src/LoraStack.cpp:313-340 | corrected: after two sends before any completion, accepted or not, only the second callback fires, once |
| Orchestrator.ProvisionKeepsStoredSession | src/LoraStack.cpp:288-310 | a successful `provision` deletes nothing: a stored ABP session and the ABP pull survive it with only NETID rewritten to 0x13 |

## Findings

| source | as written | input that shows it | evidently intended | confidence | as-written member | corrected member |
|---|---|---|---|---|---|---|
| src/LoraStack.cpp:322-340 | `sendBytes` takes the application callback `cb` but never assigns it to `_txCallback`, so `txCallback` finds the slot empty and the callback never fires | any accepted `sendBytes(payload, n, port, confirm, cb)` followed by the engine's completion | `_txCallback = cb` before `SendBuffer`, so the callback fires once on completion; a new send overwrites a pending callback | high that `cb` is unused; the header at src/LoraStack.h:129 does not declare the parameter or the `_txCallback` member either; not executed | Orchestrator.SendBytesAsWrittenLosesCallback | Orchestrator.SendThenCompleteFiresOnce |

The corrected `Orchestrator.SendBytes` fills the slot before the engine call, on every call. The slot has to be filled before `SendBuffer`, because the engine may complete the frame before `SendBuffer` returns. A consequence: a send the engine rejects while an earlier frame is still pending replaces that frame's callback. The earlier frame's completion then fires the new callback (`Orchestrator.SecondSendOverwritesPending`).

## Left out

- The MAC engine itself: the engine's `begin`, `LMIC_startJoining`, `SendBuffer` and `SetReceiveBufferBufferCb` have no visible source. Only their answers appear, as parameters.
- `onMessage` and `ReceiveBufferCb` (src/LoraStack.cpp:342-359) are left out. They only forward a function pointer to the engine and a received buffer back to it.
- `sendBytes` does not use its `port` and `sf` arguments (they are marked TODO), so the model has none.
- The retry arguments of both `join` overloads are unused by the firmware and absent from the model.
- `ParameterStore` internals and the storage medium are left out.
  - A refused `set` is assumed to leave its key unchanged.
  - A failed `get` is modelled as an absent key, whatever its cause (a read I/O error included). The code treats every non-`PS_SUCCESS` answer alike (src/LoraStack.cpp:59, 100, 115-131).
  - A byte array and a scalar of the same size are distinct values in the model. Each key is written with one shape only, so the difference is never observable.
- NETID is written from the `int` literal `TTN_NETWORK_ID`. The model stores it as a 32-bit scalar, which assumes a target whose `int` is 32 bits wide (ARM). On AVR, `int` is 16 bits, so NETID would be written as 2 bytes and the 4-byte read of NETID would fail. That target is not modelled.
- `GetSavedSessionInfo`'s extra-session-info arguments are unused by the firmware and absent from the model.
- `GetAbpProvisioningInfo` dereferences its destination without a null check. The model has no destination argument for it.
- Logging, build configuration, frequency-plan, spreading-factor and power constants, and the example sketch are left out. They are I/O and compile-time plumbing outside the persistence logic.

=== FILE: byte_order.dfy ===
/**
 Byte-order handling at the boundary between the store and the MAC engine:
 `reverseMem` (src/LoraStack.cpp) for EUIs, and the `ntohl` correction that
 `personalize` applies to a DevAddr parsed into a `uint32_t`'s memory.
 */
module ByteOrder {
  import opened Types

  /** The bytes of `s` in the opposite order. */
  function Reverse(s: seq<uint8>): (r: seq<uint8>)
    ensures |r| == |s|
    ensures forall i :: 0 <= i < |s| ==> r[i] == s[|s| - 1 - i]
  {
    if |s| == 0 then [] else Reverse(s[1..]) + [s[0]]
  }

  /**
   `reverseMem`: swaps the bytes under a front and a back cursor and moves
   both inwards until they meet. The buffer is passed by value here and the
   reversed buffer returned.
   */
  method ReverseMem(buf: seq<uint8>) returns (r: seq<uint8>)
    ensures r == Reverse(buf)
  {
    r := buf;
    if |buf| == 0 {
      return;
    }
    var b := 0;
    var e := |buf| - 1;
    while b < e
      invariant 0 <= b <= e + 1 && e < |buf| && b + e == |buf| - 1
      invariant |r| == |buf|
      invariant forall i :: 0 <= i < b ==> r[i] == buf[|buf| - 1 - i]
      invariant forall i :: e < i < |buf| ==> r[i] == buf[|buf| - 1 - i]
      invariant forall i :: b <= i <= e ==> r[i] == buf[i]
      decreases e - b
    {
      var temp := r[b];
      r := r[b := r[e]][e := temp];
      b := b + 1;
      e := e - 1;
    }
  }

  /** Reversing twice restores the buffer: the engine's EUI order and the
      stored order carry the same information. */
  lemma ReverseInvolution(s: seq<uint8>)
    ensures Reverse(Reverse(s)) == s
  {
  }

  /** The value of four bytes read most significant first (network order). */
  function BigEndian32(b: Bytes4): uint32 {
    (b[0] as int * 0x100_0000 + b[1] as int * 0x1_0000 + b[2] as int * 0x100 + b[3] as int) as uint32
  }

  /** The value of four bytes read least significant first: what a
      `uint32_t` holds on the little-endian targets (AVR, ARM) after
      `hexToBytes` filled its memory. */
  function LittleEndian32(b: Bytes4): uint32 {
    (b[3] as int * 0x100_0000 + b[2] as int * 0x1_0000 + b[1] as int * 0x100 + b[0] as int) as uint32
  }

  /** The memory bytes of `x` on a little-endian target. */
  function MemoryBytes(x: uint32): (b: Bytes4)
    ensures LittleEndian32(b) == x
  {
    Digits(x as int);
    [(x % 0x100) as uint8, (x / 0x100 % 0x100) as uint8,
     (x / 0x1_0000 % 0x100) as uint8, (x / 0x100_0000) as uint8]
  }

  /** `ntohl` on a little-endian target: the value's memory bytes re-read
      in network order. */
  function Ntohl(x: uint32): uint32 {
    BigEndian32(MemoryBytes(x))
  }

  /** The four network-order bytes of a value. */
  function NetworkBytes(x: uint32): (b: Bytes4)
    ensures BigEndian32(b) == x
  {
    Digits(x as int);
    [(x / 0x100_0000) as uint8, (x / 0x1_0000 % 0x100) as uint8,
     (x / 0x100 % 0x100) as uint8, (x % 0x100) as uint8]
  }

  /** A little-endian load is undone by taking the value's memory bytes. */
  lemma MemoryBytesOfLoad(b: Bytes4)
    ensures MemoryBytes(LittleEndian32(b)) == b
  {
    var x := LittleEndian32(b) as int;
    assert x == b[0] as int + 0x100 * (b[1] as int + 0x100 * (b[2] as int + 0x100 * b[3] as int));
    DivMod256(x, b[0] as int, b[1] as int + 0x100 * (b[2] as int + 0x100 * b[3] as int));
    DivMod256(x / 0x100, b[1] as int, b[2] as int + 0x100 * b[3] as int);
    DivMod256(x / 0x100 / 0x100, b[2] as int, b[3] as int);
    assert x / 0x1_0000 == x / 0x100 / 0x100;
    assert x / 0x100_0000 == x / 0x100 / 0x100 / 0x100;
  }

  /** A 32-bit value is the sum of its four base-256 digits. */
  lemma Digits(x: int)
    requires 0 <= x < 0x1_0000_0000
    ensures x / 0x100_0000 < 0x100
    ensures x == x % 0x100 + 0x100 * (x / 0x100 % 0x100)
      + 0x1_0000 * (x / 0x1_0000 % 0x100) + 0x100_0000 * (x / 0x100_0000)
  {
  }

  lemma DivMod256(x: int, lo: int, hi: int)
    requires 0 <= lo < 0x100 && 0 <= hi && x == lo + 0x100 * hi
    ensures x % 0x100 == lo && x / 0x100 == hi
  {
  }

  /** What `personalize` stores: `ntohl` of the little-endian load of the
      parsed bytes is their big-endian value, whatever the target's order. */
  lemma NtohlOfLoad(b: Bytes4)
    ensures Ntohl(LittleEndian32(b)) == BigEndian32(b)
  {
    MemoryBytesOfLoad(b);
  }

  /** Network-order bytes and the big-endian value determine each other. */
  lemma NetworkBytesOfValue(b: Bytes4)
    ensures NetworkBytes(BigEndian32(b)) == b
  {
    var x := BigEndian32(b) as int;
    assert x == b[3] as int + 0x100 * (b[2] as int + 0x100 * (b[1] as int + 0x100 * b[0] as int));
    DivMod256(x, b[3] as int, b[2] as int + 0x100 * (b[1] as int + 0x100 * b[0] as int));
    DivMod256(x / 0x100, b[2] as int, b[1] as int + 0x100 * b[0] as int);
    DivMod256(x / 0x100 / 0x100, b[1] as int, b[0] as int);
    assert x / 0x1_0000 == x / 0x100 / 0x100;
    assert x / 0x100_0000 == x / 0x100 / 0x100 / 0x100;
  }
}

=== FILE: hex_codec.dfy ===
/**
 Fixed-length hex parsing (`hexDigit`, `hexToBytes` in src/LoraStack.cpp).

 The firmware reads a NUL-terminated C string. Here a string is a `seq<char>`
 that ends either at its last element or at the first NUL character,
 whichever comes first; the characters after a NUL are never looked at.
 */
module HexCodec {
  import opened Types

  /** The characters `hexDigit` gives a value below 16. */
  predicate IsHexChar(c: char) {
    '0' <= c <= '9' || 'A' <= c <= 'F' || 'a' <= c <= 'f'
  }

  /** The upper-case hex character of a nibble: the canonical spelling. */
  function NibbleChar(n: uint8): (c: char)
    requires n < 16
    ensures IsHexChar(c) && !('a' <= c <= 'f')
  {
    if n < 10 then ('0' as int + n as int) as char else ('A' as int + n as int - 10) as char
  }

  /** Folds the lower-case hex letters to upper case; other characters stay. */
  function Canonical(c: char): char {
    if 'a' <= c <= 'f' then (c as int - 32) as char else c
  }

  function CanonicalString(s: string): (r: string)
    ensures |r| == |s|
    ensures forall i :: 0 <= i < |s| ==> r[i] == Canonical(s[i])
  {
    seq(|s|, i requires 0 <= i < |s| => Canonical(s[i]))
  }

  /** `hexDigit`: 0-9, A-F and a-f map to their value, anything else to 16. */
  function HexDigit(c: char): (r: uint8)
    ensures r <= 16
    ensures r < 16 <==> IsHexChar(c)
    ensures r < 16 ==> NibbleChar(r) == Canonical(c)
  {
    if '0' <= c <= '9' then (c as int - '0' as int) as uint8
    else if 'A' <= c <= 'F' then (c as int - 'A' as int + 0xA) as uint8
    else if 'a' <= c <= 'f' then (c as int - 'a' as int + 0xA) as uint8
    else 16
  }

  /** The C string `s` has ended at position `k`: end of sequence or NUL. */
  predicate Ends(s: string, k: nat) {
    k >= |s| || s[k] == '\0'
  }

  /** What `hexToBytes(buf, size, hex)` accepts: exactly `2 * size` hex
      characters and then the end of the string. */
  predicate WellFormedHex(hex: string, size: nat) {
    && 2 * size <= |hex|
    && (forall k :: 0 <= k < 2 * size ==> IsHexChar(hex[k]))
    && Ends(hex, 2 * size)
  }

  /** The byte spelled by two hex characters, most significant nibble first. */
  function ByteValue(hi: char, lo: char): int {
    16 * HexDigit(hi) as int + HexDigit(lo) as int
  }

  /**
   `hexToBytes`: consumes two characters per byte while bytes remain and
   neither character is the terminator; a non-hex character fails at once;
   success needs both the buffer filled and the input used up. `None` is the
   `false` return (the buffer contents are then of no use to any caller).
   */
  function HexToBytes(size: nat, hex: string): (r: Option<seq<uint8>>)
    ensures r.Some? <==> WellFormedHex(hex, size)
    ensures r.Some? ==> |r.value| == size
    ensures r.Some? ==>
      forall i :: 0 <= i < size ==> r.value[i] as int == ByteValue(hex[2 * i], hex[2 * i + 1])
    decreases size
  {
    if size > 0 && !Ends(hex, 0) && !Ends(hex, 1) then
      var msn := HexDigit(hex[0]);
      var lsn := HexDigit(hex[1]);
      if msn == 16 || lsn == 16 then
        assert !WellFormedHex(hex, size) by {
          assert !IsHexChar(hex[0]) || !IsHexChar(hex[1]);
        }
        None
      else
        WellFormedStep(hex, size);
        match HexToBytes(size - 1, hex[2..])
        case None => None
        case Some(rest) =>
          var b := [(msn as int * 16 + lsn as int) as uint8] + rest;
          Some(b)
    else if size == 0 && Ends(hex, 0) then
      Some([])
    else
      None
  }

  /** Accepting `size` bytes is accepting one byte, then `size - 1` more. */
  lemma WellFormedStep(hex: string, size: nat)
    requires size > 0 && 2 <= |hex|
    requires IsHexChar(hex[0]) && IsHexChar(hex[1])
    ensures WellFormedHex(hex, size) <==> WellFormedHex(hex[2..], size - 1)
  {
  }

  /** The canonical (upper-case) hex spelling of a byte string. */
  function EncodeHex(b: seq<uint8>): (s: string)
    ensures |s| == 2 * |b|
  {
    if |b| == 0 then []
    else [NibbleChar(b[0] / 16), NibbleChar(b[0] % 16)] + EncodeHex(b[1..])
  }

  /** Every byte string survives encoding and decoding. */
  lemma {:induction false} DecodeEncode(b: seq<uint8>)
    ensures HexToBytes(|b|, EncodeHex(b)) == Some(b)
  {
    var s := EncodeHex(b);
    if |b| > 0 {
      DecodeEncode(b[1..]);
      assert s[2..] == EncodeHex(b[1..]);
      NibbleDigit(b[0] / 16);
      NibbleDigit(b[0] % 16);
      DecodeStep(s, |b|);
      assert ByteValue(s[0], s[1]) == b[0] as int;
      assert b == [b[0]] + b[1..];
    }
  }

  /** One iteration of the `hexToBytes` loop on two hex characters. */
  lemma DecodeStep(hex: string, size: nat)
    requires size > 0 && 2 <= |hex|
    requires IsHexChar(hex[0]) && IsHexChar(hex[1])
    requires HexToBytes(size - 1, hex[2..]).Some?
    ensures HexToBytes(size, hex)
      == Some([ByteValue(hex[0], hex[1]) as uint8] + HexToBytes(size - 1, hex[2..]).value)
  {
  }

  /** `hexDigit` inverts `NibbleChar`. */
  lemma NibbleDigit(n: uint8)
    requires n < 16
    ensures HexDigit(NibbleChar(n)) == n
  {
  }

  /** A decoded buffer re-encodes to the input's first `2 * size`
      characters with their case folded: the parse loses nothing but case. */
  lemma {:induction false} EncodeDecode(size: nat, hex: string)
    requires HexToBytes(size, hex).Some?
    ensures EncodeHex(HexToBytes(size, hex).value) == CanonicalString(hex[..2 * size])
    decreases size
  {
    var b := HexToBytes(size, hex).value;
    if size > 0 {
      WellFormedStep(hex, size);
      EncodeDecode(size - 1, hex[2..]);
      var rest := HexToBytes(size - 1, hex[2..]).value;
      assert b[1..] == rest;
      assert hex[2..][..2 * (size - 1)] == hex[..2 * size][2..];
      assert NibbleChar(b[0] / 16) == Canonical(hex[0]);
      assert NibbleChar(b[0] % 16) == Canonical(hex[1]);
      assert CanonicalString(hex[..2 * size])
        == [Canonical(hex[0]), Canonical(hex[1])] + CanonicalString(hex[..2 * size][2..]);
    }
  }
}

=== FILE: orchestrator.dfy ===
/**
 The application-facing `LoraStack` object (src/LoraStack.cpp): `begin`, both
 `join` overloads, `txCallback` and `sendBytes`.

 The MAC engine is not part of this model. Each engine call is recorded in
 `Stack.calls`, so that contracts can say which calls happened, and its
 answer is a parameter of the operation that makes it.
 */
module Orchestrator {
  import opened Types
  import opened ParameterStore
  import opened Provisioning
  import opened Session

  /** The identity of an application completion callback. */
  type Callback = nat

  /** The engine calls `LoraStack` makes. */
  datatype EngineCall = EngineBegin | StartJoining | SendBuffer(payload: seq<uint8>, confirm: bool)

  /** `LoraStack`'s state: the `_begun` flag, the pending transmit callback
      slot, and the engine calls made so far. */
  datatype Stack = Stack(begun: bool, txCallback: Option<Callback>, calls: seq<EngineCall>)

  /** The state the constructor leaves: not begun, no callback pending. */
  const Initial: Stack := Stack(false, None, [])

  datatype Step = Step(ok: bool, stack: Stack)

  /**
   `begin`: asks the engine to begin only while `_begun` is false and keeps
   its answer; once `true`, later calls answer `true` without an engine call.
   `engineBegins` is the engine's answer should it be asked.
   */
  function Begin(s: Stack, engineBegins: bool): (r: Step)
    ensures r.ok == r.stack.begun && r.stack.txCallback == s.txCallback
    ensures s.begun ==> r.ok && r.stack == s
    ensures !s.begun ==> r.stack.calls == s.calls + [EngineBegin] && (r.ok <==> engineBegins)
  {
    if !s.begun then
      var s' := s.(begun := engineBegins, calls := s.calls + [EngineBegin]);
      Step(s'.begun, s')
    else
      Step(s.begun, s)
  }

  /** `begin` called once per answer in `answers`, in order. */
  function BeginEach(s: Stack, answers: seq<bool>): Stack
    decreases |answers|
  {
    if |answers| == 0 then s else BeginEach(Begin(s, answers[0]).stack, answers[1..])
  }

  /** How many of the calls in `answers` reach the engine when none has
      succeeded yet: every one up to and including the first `true`. */
  function Attempts(answers: seq<bool>): nat {
    if |answers| == 0 then 0 else if answers[0] then 1 else 1 + Attempts(answers[1..])
  }

  /**
   Repeated `begin`: the engine's begin is asked once per call until it
   first answers `true`, and never after; the stack is begun exactly when
   one of the answers was `true`.
   */
  lemma {:induction false} BeginCallsEngineUntilSuccess(s: Stack, answers: seq<bool>)
    requires !s.begun
    ensures BeginEach(s, answers).calls == s.calls + seq(Attempts(answers), _ => EngineBegin)
    ensures BeginEach(s, answers).begun <==> true in answers
    decreases |answers|
  {
    if |answers| > 0 {
      var s1 := Begin(s, answers[0]).stack;
      if answers[0] {
        BegunIsStable(s1, answers[1..]);
      } else {
        BeginCallsEngineUntilSuccess(s1, answers[1..]);
        assert answers == [answers[0]] + answers[1..];
        assert true in answers <==> true in answers[1..];
      }
    }
  }

  /** Once begun, any number of further `begin` calls change nothing. */
  lemma {:induction false} BegunIsStable(s: Stack, answers: seq<bool>)
    requires s.begun
    ensures BeginEach(s, answers) == s
    decreases |answers|
  {
    if |answers| > 0 {
      BegunIsStable(s, answers[1..]);
    }
  }

  /**
   `join(retries, retryDelay)`: `begin`, then `LMIC_startJoining` only when
   `begin` answered `true`. `joinStarts` is the engine's answer to the
   join request. The retry arguments are unused by the firmware.
   */
  function JoinProvisioned(s: Stack, engineBegins: bool, joinStarts: bool): (r: Step)
    ensures r.stack.txCallback == s.txCallback
    ensures r.ok <==> r.stack.begun && joinStarts
    ensures var b := Begin(s, engineBegins).stack;
      r.stack.begun == b.begun
      && r.stack.calls == b.calls + (if b.begun then [StartJoining] else [])
  {
    var b := Begin(s, engineBegins);
    if !b.ok then Step(false, b.stack)
    else Step(joinStarts, b.stack.(calls := b.stack.calls + [StartJoining]))
  }

  datatype JoinResult = JoinResult(ok: bool, stack: Stack, store: Store)

  /**
   `join(appEui, devEui, appKey, ...)`: `provision`, and only when it answers
   `true` the provisioned `join`. A failed provisioning makes no engine call.
   */
  function Join(s: Stack, st: Store, rejects: set<Key>, appEui: string, devEui: string, appKey: string,
                engineBegins: bool, joinStarts: bool): (r: JoinResult)
    ensures r.store == Provision(st, rejects, appEui, devEui, appKey).store
    ensures !Provision(st, rejects, appEui, devEui, appKey).ok ==> !r.ok && r.stack == s
    ensures Provision(st, rejects, appEui, devEui, appKey).ok ==>
      Step(r.ok, r.stack) == JoinProvisioned(s, engineBegins, joinStarts)
    ensures r.ok ==> OtaaHexValid(appEui, devEui, appKey) && OtaaKeys !! rejects && r.stack.begun
  {
    var p := Provision(st, rejects, appEui, devEui, appKey);
    if !p.ok then JoinResult(false, s, p.store)
    else
      var j := JoinProvisioned(s, engineBegins, joinStarts);
      JoinResult(j.ok, j.stack, p.store)
  }

  /** Malformed hex never reaches the store or the engine. */
  lemma MalformedJoinTouchesNothing(s: Stack, st: Store, rejects: set<Key>, appEui: string,
                                    devEui: string, appKey: string, engineBegins: bool, joinStarts: bool)
    requires !OtaaHexValid(appEui, devEui, appKey)
    ensures Join(s, st, rejects, appEui, devEui, appKey, engineBegins, joinStarts)
      == JoinResult(false, s, st)
  {
  }

  /** A transmit completion: the state after it and the callback invoked
      with its argument, if one was pending. */
  datatype TxOutcome = TxOutcome(stack: Stack, fired: Option<(Callback, bool)>)

  /**
   `txCallback`: the engine's transmit-completion hook. A pending callback
   is taken out of the slot and the slot cleared before the callback is
   invoked with the completion status.
   */
  function TxCallback(s: Stack, success: bool): (r: TxOutcome)
    ensures r.stack == s.(txCallback := None)
    ensures r.fired.Some? <==> s.txCallback.Some?
    ensures r.fired.Some? ==> r.fired.value == (s.txCallback.value, success)
  {
    match s.txCallback
    case Some(cb) => TxOutcome(s.(txCallback := None), Some((cb, success)))
    case None => TxOutcome(s, None)
  }

  /** The callbacks fired by a series of transmit completions. */
  function CompleteEach(s: Stack, outcomes: seq<bool>): (fired: seq<(Callback, bool)>)
    decreases |outcomes|
  {
    if |outcomes| == 0 then []
    else
      var t := TxCallback(s, outcomes[0]);
      (if t.fired.Some? then [t.fired.value] else []) + CompleteEach(t.stack, outcomes[1..])
  }

  /**
   However often the engine signals completion, the pending callback fires
   once, with the first signal's status, and nothing fires after it.
   */
  lemma {:induction false} CallbackFiresAtMostOnce(s: Stack, outcomes: seq<bool>)
    ensures CompleteEach(s, outcomes)
      == if s.txCallback.Some? && |outcomes| > 0 then [(s.txCallback.value, outcomes[0])] else []
    decreases |outcomes|
  {
    if |outcomes| > 0 {
      CallbackFiresAtMostOnce(TxCallback(s, outcomes[0]).stack, outcomes[1..]);
    }
  }

  /** The `ttn_response_t` values `sendBytes` returns. */
  datatype TtnResponse = SuccessfulTransmission | SendCommandFailed

  datatype SendResult = SendResult(response: TtnResponse, stack: Stack)

  /**
   `sendBytes` as written: the payload goes to the engine with `txCallback`
   as completion hook, and the answer reports whether the engine took it.
   The application callback `cb` is accepted but never stored.
   */
  function SendBytesAsWritten(s: Stack, payload: seq<uint8>, confirm: bool, cb: Callback,
                              engineAccepts: bool): (r: SendResult)
    ensures r.stack.calls == s.calls + [SendBuffer(payload, confirm)]
    ensures r.response == SuccessfulTransmission <==> engineAccepts
    ensures r.stack.txCallback == s.txCallback
    ensures r.stack.begun == s.begun
  {
    var s' := s.(calls := s.calls + [SendBuffer(payload, confirm)]);
    SendResult(if engineAccepts then SuccessfulTransmission else SendCommandFailed, s')
  }

  /**
   The discrepancy: from a stack with no callback pending, a send the engine
   accepted completes without the application callback ever firing.
   */
  lemma SendBytesAsWrittenLosesCallback(payload: seq<uint8>, confirm: bool, cb: Callback, outcomes: seq<bool>)
    ensures CompleteEach(SendBytesAsWritten(Initial, payload, confirm, cb, true).stack, outcomes) == []
  {
  }

  /**
   `sendBytes` with the application callback put in the single slot before
   the frame is handed to the engine, whatever the engine answers: the slot
   must be filled before `SendBuffer`, which may complete the frame before it
   returns. A new send overwrites any callback still pending.
   */
  function SendBytes(s: Stack, payload: seq<uint8>, confirm: bool, cb: Callback,
                     engineAccepts: bool): (r: SendResult)
    ensures r.stack.calls == s.calls + [SendBuffer(payload, confirm)]
    ensures r.response == SuccessfulTransmission <==> engineAccepts
    ensures r.stack.txCallback == Some(cb)
    ensures r.stack.begun == s.begun
  {
    var s' := s.(txCallback := Some(cb));
    var s'' := s'.(calls := s'.calls + [SendBuffer(payload, confirm)]);
    SendResult(if engineAccepts then SuccessfulTransmission else SendCommandFailed, s'')
  }

  /** A send's callback fires exactly once, with the status of the first
      completion the engine signals. */
  lemma SendThenCompleteFiresOnce(s: Stack, payload: seq<uint8>, confirm: bool, cb: Callback,
                                  accepts: bool, outcomes: seq<bool>)
    requires |outcomes| > 0
    ensures CompleteEach(SendBytes(s, payload, confirm, cb, accepts).stack, outcomes) == [(cb, outcomes[0])]
  {
  }

  /** Two sends before any completion, whichever of them the engine accepted:
      only the second callback ever fires, once. */
  lemma SecondSendOverwritesPending(s: Stack, p1: seq<uint8>, p2: seq<uint8>, confirm: bool,
                                    cb1: Callback, cb2: Callback, accepts1: bool, accepts2: bool,
                                    outcomes: seq<bool>)
    requires |outcomes| > 0
    ensures var s1 := SendBytes(s, p1, confirm, cb1, accepts1).stack;
      CompleteEach(SendBytes(s1, p2, confirm, cb2, accepts2).stack, outcomes) == [(cb2, outcomes[0])]
  {
  }

  /**
   What `provision` leaves behind: its writes touch only APPEUI, DEVEUI,
   APPKEY and NETID, so after it succeeds a previously stored ABP session
   still loads, unchanged except for NETID, and so does the ABP pull.
   */
  lemma ProvisionKeepsStoredSession(st: Store, rejects: set<Key>, appEui: string, devEui: string,
                                    appKey: string)
    ensures var r := Provision(st, rejects, appEui, devEui, appKey);
      r.ok && GetSavedSessionInfo(st).Some? ==>
        GetSavedSessionInfo(r.store) == Some(GetSavedSessionInfo(st).value.(netId := TTN_NETWORK_ID))
    ensures var r := Provision(st, rejects, appEui, devEui, appKey);
      r.ok && GetAbpProvisioningInfo(st).Some? ==>
        GetAbpProvisioningInfo(r.store) == Some(GetAbpProvisioningInfo(st).value.(netId := TTN_NETWORK_ID))
  {
    var r := Provision(st, rejects, appEui, devEui, appKey);
    if r.ok {
      var w := WriteOtaa(st, rejects, Parsed(appEui, 8), Parsed(devEui, 8), Parsed(appKey, 16));
      assert r == w;
      assert r.store[NETID] == Word(TTN_NETWORK_ID);
      assert Agree(st, r.store, DEVADDR) && Agree(st, r.store, NWKSKEY) && Agree(st, r.store, APPSKEY);
      assert Agree(st, r.store, FCNTUP) && Agree(st, r.store, FCNTDN);
    }
  }
}

=== FILE: parameter_store.dfy ===
/**
 The key-value `ParameterStore` the firmware persists into, as an immutable
 map. Its internals and medium are not part of this model: a `get` succeeds
 when the key holds a value of the requested shape and size (anything else is
 "not found" or "size mismatch"), and a `set` may be refused by the medium,
 which the caller cannot predict: the `rejects` parameter of every writing
 operation names the keys whose `set` fails during that operation. A refused
 `set` leaves the key as it was.
 */
module ParameterStore {
  import opened Types

  /** The key namespace shared by provisioning and session persistence.
      The firmware names keys by strings; `Name` gives each one's string. */
  datatype Key = APPEUI | DEVEUI | APPKEY | NWKSKEY | APPSKEY | DEVADDR | NETID | FCNTUP | FCNTDN {

    function Name(): string {
      match this
      case APPEUI => "APPEUI"
      case DEVEUI => "DEVEUI"
      case APPKEY => "APPKEY"
      case NWKSKEY => "NWKSKEY"
      case APPSKEY => "APPSKEY"
      case DEVADDR => "DEVADDR"
      case NETID => "NETID"
      case FCNTUP => "FCNTUP"
      case FCNTDN => "FCNTDN"
    }
  }

  /** Distinct keys have distinct names, so no two keys share a store slot. */
  lemma NamesIdentifyKeys(a: Key, b: Key)
    ensures a.Name() == b.Name() <==> a == b
  {
  }

  /** A stored value: a byte array (EUIs, keys) or a 32-bit scalar
      (DevAddr, NetID, frame counters). */
  datatype Value = Blob(data: seq<uint8>) | Word(w: uint32)

  type Store = map<Key, Value>

  /** The store after a writing operation and whether the operation reports
      success. */
  datatype Written = Written(ok: bool, store: Store)

  /** `get` of a byte array of `size` bytes. */
  function GetBlob(st: Store, k: Key, size: nat): (r: Option<seq<uint8>>)
    ensures r.Some? ==> |r.value| == size
  {
    if k in st && st[k].Blob? && |st[k].data| == size then Some(st[k].data) else None
  }

  /** `get` of a 32-bit scalar. */
  function GetWord(st: Store, k: Key): Option<uint32> {
    if k in st && st[k].Word? then Some(st[k].w) else None
  }

  /** One `set`: refused keys stay as they were. */
  function Set(st: Store, rejects: set<Key>, k: Key, v: Value): Written {
    if k in rejects then Written(false, st) else Written(true, st[k := v])
  }

  /** `a` and `b` agree on key `k`: both lack it or both hold the same value. */
  predicate Agree(a: Store, b: Store, k: Key) {
    (k in a <==> k in b) && (k in a ==> a[k] == b[k])
  }

  /** The keys of a write list. */
  function KeysOf(ws: seq<(Key, Value)>): set<Key> {
    set i | 0 <= i < |ws| :: ws[i].0
  }

  predicate DistinctKeys(ws: seq<(Key, Value)>) {
    forall i, j :: 0 <= i < j < |ws| ==> ws[i].0 != ws[j].0
  }

  /** How many writes of `ws`, taken in order, land before the first refused
      one. */
  function Landed(ws: seq<(Key, Value)>, rejects: set<Key>): (n: nat)
    ensures n <= |ws|
    ensures forall i :: 0 <= i < n ==> ws[i].0 !in rejects
    ensures n < |ws| ==> ws[n].0 in rejects
  {
    if |ws| == 0 || ws[0].0 in rejects then 0 else 1 + Landed(ws[1..], rejects)
  }

  /**
   A chain of `set`s that returns at the first refused one, as the firmware's
   `if (PS_SUCCESS != set(...)) return;` sequences do: the writes before the
   first refusal land, that one and every later one leave their key alone,
   and no key outside the list is touched.
   */
  function WriteUntilFailure(st: Store, rejects: set<Key>, ws: seq<(Key, Value)>): (r: Store)
    requires DistinctKeys(ws)
    ensures forall i :: 0 <= i < Landed(ws, rejects) ==> ws[i].0 in r && r[ws[i].0] == ws[i].1
    ensures forall i :: Landed(ws, rejects) <= i < |ws| ==> Agree(st, r, ws[i].0)
    ensures forall k :: k !in KeysOf(ws) ==> Agree(st, r, k)
    decreases |ws|
  {
    if |ws| == 0 then st
    else
      var w := Set(st, rejects, ws[0].0, ws[0].1);
      if !w.ok then st
      else
        var r := WriteUntilFailure(w.store, rejects, ws[1..]);
        assert forall i :: 1 <= i < |ws| ==> ws[1..][i - 1] == ws[i];
        assert forall k :: k in KeysOf(ws[1..]) ==> k in KeysOf(ws);
        assert ws[0].0 !in KeysOf(ws[1..]);
        r
  }
}

=== FILE: provisioning.dfy ===
/**
 Credential provisioning (src/LoraStack.cpp): `provision` (OTAA) and
 `personalize` (ABP) turn hex strings into store entries; the MAC engine pulls
 them back through `GetOtaaProvisioningInfo` and `GetAbpProvisioningInfo`.

 EUIs are stored in the order the user typed them and reversed only when
 handed to the engine; a DevAddr is stored as the 32-bit value of its four
 bytes read in network order.
 */
module Provisioning {
  import opened Types
  import opened HexCodec
  import opened ByteOrder
  import opened ParameterStore

  /** `TTN_NETWORK_ID`, written as NETID by both provisioning paths. */
  const TTN_NETWORK_ID: uint32 := 0x13

  /** What the engine receives for an over-the-air join. */
  datatype OtaaInfo = OtaaInfo(appEui: Bytes8, devEui: Bytes8, appKey: Bytes16)

  /** What the engine receives for activation by personalization. */
  datatype AbpInfo = AbpInfo(
    nwkSKey: Bytes16, appSKey: Bytes16, devAddr: uint32, netId: uint32,
    fCntUp: uint32, fCntDown: uint32)

  /** The keys `provision` and `personalize` write. */
  const OtaaKeys: set<Key> := {APPEUI, DEVEUI, APPKEY, NETID}

  const AbpKeys: set<Key> := {DEVADDR, NWKSKEY, APPSKEY, NETID}

  predicate OtaaHexValid(appEui: string, devEui: string, appKey: string) {
    WellFormedHex(appEui, 8) && WellFormedHex(devEui, 8) && WellFormedHex(appKey, 16)
  }

  predicate AbpHexValid(devAddr: string, nwkSKey: string, appSKey: string) {
    WellFormedHex(devAddr, 4) && WellFormedHex(nwkSKey, 16) && WellFormedHex(appSKey, 16)
  }

  /** The bytes `hexToBytes` parses from a string it accepts. */
  function Parsed(hex: string, size: nat): (b: seq<uint8>)
    requires WellFormedHex(hex, size)
    ensures |b| == size
  {
    HexToBytes(size, hex).value
  }

  /**
   The four `set`s of `provision`, each attempted whatever the earlier ones
   returned; the result is `true` exactly when none was refused.
   */
  function WriteOtaa(st: Store, rejects: set<Key>, appEui: Bytes8, devEui: Bytes8, appKey: Bytes16)
    : (r: Written)
    ensures r.ok <==> OtaaKeys !! rejects
    ensures APPEUI !in rejects ==> APPEUI in r.store && r.store[APPEUI] == Blob(appEui)
    ensures DEVEUI !in rejects ==> DEVEUI in r.store && r.store[DEVEUI] == Blob(devEui)
    ensures APPKEY !in rejects ==> APPKEY in r.store && r.store[APPKEY] == Blob(appKey)
    ensures NETID !in rejects ==> NETID in r.store && r.store[NETID] == Word(TTN_NETWORK_ID)
    ensures forall k :: k !in OtaaKeys - rejects ==> Agree(st, r.store, k)
  {
    var w1 := Set(st, rejects, APPEUI, Blob(appEui));
    var w2 := Set(w1.store, rejects, DEVEUI, Blob(devEui));
    var w3 := Set(w2.store, rejects, APPKEY, Blob(appKey));
    var w4 := Set(w3.store, rejects, NETID, Word(TTN_NETWORK_ID));
    Written(w1.ok && w2.ok && w3.ok && w4.ok, w4.store)
  }

  /**
   `provision`: all three strings are parsed before anything is written, and
   a parse failure returns `false` with the store untouched; then the four
   writes of `WriteOtaa`.
   */
  function Provision(st: Store, rejects: set<Key>, appEui: string, devEui: string, appKey: string)
    : (r: Written)
    ensures !OtaaHexValid(appEui, devEui, appKey) ==> r == Written(false, st)
    ensures OtaaHexValid(appEui, devEui, appKey) ==>
      r == WriteOtaa(st, rejects, Parsed(appEui, 8), Parsed(devEui, 8), Parsed(appKey, 16))
  {
    var appEuiBytes := HexToBytes(8, appEui);
    if appEuiBytes.None? then Written(false, st)
    else
      var devEuiBytes := HexToBytes(8, devEui);
      if devEuiBytes.None? then Written(false, st)
      else
        var appKeyBytes := HexToBytes(16, appKey);
        if appKeyBytes.None? then Written(false, st)
        else WriteOtaa(st, rejects, appEuiBytes.value, devEuiBytes.value, appKeyBytes.value)
  }

  /**
   The four `set`s of `personalize`, each attempted whatever the earlier ones
   returned; the result is `true` exactly when none was refused.
   */
  function WriteAbp(st: Store, rejects: set<Key>, devAddr: uint32, nwkSKey: Bytes16, appSKey: Bytes16)
    : (r: Written)
    ensures r.ok <==> AbpKeys !! rejects
    ensures DEVADDR !in rejects ==> DEVADDR in r.store && r.store[DEVADDR] == Word(devAddr)
    ensures NWKSKEY !in rejects ==> NWKSKEY in r.store && r.store[NWKSKEY] == Blob(nwkSKey)
    ensures APPSKEY !in rejects ==> APPSKEY in r.store && r.store[APPSKEY] == Blob(appSKey)
    ensures NETID !in rejects ==> NETID in r.store && r.store[NETID] == Word(TTN_NETWORK_ID)
    ensures forall k :: k !in AbpKeys - rejects ==> Agree(st, r.store, k)
  {
    var w1 := Set(st, rejects, DEVADDR, Word(devAddr));
    var w2 := Set(w1.store, rejects, NWKSKEY, Blob(nwkSKey));
    var w3 := Set(w2.store, rejects, APPSKEY, Blob(appSKey));
    var w4 := Set(w3.store, rejects, NETID, Word(TTN_NETWORK_ID));
    Written(w1.ok && w2.ok && w3.ok && w4.ok, w4.store)
  }

  /**
   `personalize`: the DevAddr is parsed into the memory of a `uint32_t` and
   corrected with `ntohl`, then both session keys are parsed; any parse
   failure returns `false` before a write. The value written as DEVADDR is
   the big-endian value of the four parsed bytes.
   */
  function Personalize(st: Store, rejects: set<Key>, devAddr: string, nwkSKey: string, appSKey: string)
    : (r: Written)
    ensures !AbpHexValid(devAddr, nwkSKey, appSKey) ==> r == Written(false, st)
    ensures AbpHexValid(devAddr, nwkSKey, appSKey) ==>
      r == WriteAbp(st, rejects, BigEndian32(Parsed(devAddr, 4)), Parsed(nwkSKey, 16), Parsed(appSKey, 16))
  {
    var devAddrBytes := HexToBytes(4, devAddr);
    if devAddrBytes.None? then Written(false, st)
    else
      var devAddrLong := Ntohl(LittleEndian32(devAddrBytes.value));
      NtohlOfLoad(devAddrBytes.value);
      var nwkSKeyBytes := HexToBytes(16, nwkSKey);
      if nwkSKeyBytes.None? then Written(false, st)
      else
        var appSKeyBytes := HexToBytes(16, appSKey);
        if appSKeyBytes.None? then Written(false, st)
        else WriteAbp(st, rejects, devAddrLong, nwkSKeyBytes.value, appSKeyBytes.value)
  }

  /**
   `GetOtaaProvisioningInfo`: reads AppEUI, AppKey and DevEUI; AppEUI and
   DevEUI are reversed for the engine, AppKey is passed as stored. A null
   destination (`hasDest == false`) answers `false`.
   */
  function GetOtaaProvisioningInfo(st: Store, hasDest: bool): (r: Option<OtaaInfo>)
    ensures r.Some? <==>
      hasDest && GetBlob(st, APPEUI, 8).Some? && GetBlob(st, APPKEY, 16).Some?
      && GetBlob(st, DEVEUI, 8).Some?
    ensures r.Some? ==>
      && Reverse(r.value.appEui) == st[APPEUI].data
      && Reverse(r.value.devEui) == st[DEVEUI].data
      && r.value.appKey == st[APPKEY].data
  {
    if !hasDest then None
    else
      var appEui := GetBlob(st, APPEUI, 8);
      var appKey := GetBlob(st, APPKEY, 16);
      var devEui := GetBlob(st, DEVEUI, 8);
      if appEui.Some? && appKey.Some? && devEui.Some? then
        ReverseInvolution(appEui.value);
        ReverseInvolution(devEui.value);
        Some(OtaaInfo(Reverse(appEui.value), Reverse(devEui.value), appKey.value))
      else
        None
  }

  /** A frame counter read that is allowed to fail: absence reads as 0. */
  function CounterOrZero(st: Store, k: Key): uint32 {
    match GetWord(st, k)
    case Some(v) => v
    case None => 0
  }

  /**
   `GetAbpProvisioningInfo`: NwkSKey, AppSKey, DevAddr and NetID decide the
   answer; a frame counter that cannot be read becomes 0 and never turns the
   answer into `false`.
   */
  function GetAbpProvisioningInfo(st: Store): (r: Option<AbpInfo>)
    ensures r.Some? <==>
      GetBlob(st, NWKSKEY, 16).Some? && GetBlob(st, APPSKEY, 16).Some?
      && GetWord(st, DEVADDR).Some? && GetWord(st, NETID).Some?
    ensures r.Some? ==>
      && r.value.nwkSKey == st[NWKSKEY].data && r.value.appSKey == st[APPSKEY].data
      && r.value.devAddr == st[DEVADDR].w && r.value.netId == st[NETID].w
    ensures r.Some? && GetWord(st, FCNTUP).Some? ==> r.value.fCntUp == GetWord(st, FCNTUP).value
    ensures r.Some? && GetWord(st, FCNTDN).Some? ==> r.value.fCntDown == GetWord(st, FCNTDN).value
    ensures r.Some? && GetWord(st, FCNTUP).None? ==> r.value.fCntUp == 0
    ensures r.Some? && GetWord(st, FCNTDN).None? ==> r.value.fCntDown == 0
  {
    var nwkSKey := GetBlob(st, NWKSKEY, 16);
    var appSKey := GetBlob(st, APPSKEY, 16);
    var devAddr := GetWord(st, DEVADDR);
    var netId := GetWord(st, NETID);
    var fCntUp := CounterOrZero(st, FCNTUP);
    var fCntDown := CounterOrZero(st, FCNTDN);
    if nwkSKey.Some? && appSKey.Some? && devAddr.Some? && netId.Some? then
      Some(AbpInfo(nwkSKey.value, appSKey.value, devAddr.value, netId.value, fCntUp, fCntDown))
    else
      None
  }

  /**
   After a `provision` that returned `true`, the engine is handed AppEUI and
   DevEUI byte-reversed relative to the parsed hex and AppKey unchanged.
   */
  lemma OtaaRoundTrip(st: Store, rejects: set<Key>, appEui: string, devEui: string, appKey: string)
    ensures var r := Provision(st, rejects, appEui, devEui, appKey);
      r.ok ==>
        && OtaaHexValid(appEui, devEui, appKey)
        && GetOtaaProvisioningInfo(r.store, true)
           == Some(OtaaInfo(Reverse(Parsed(appEui, 8)), Reverse(Parsed(devEui, 8)), Parsed(appKey, 16)))
  {
    var r := Provision(st, rejects, appEui, devEui, appKey);
    if r.ok {
      var info := GetOtaaProvisioningInfo(r.store, true);
      ReverseInvolution(Parsed(appEui, 8));
      ReverseInvolution(Parsed(devEui, 8));
      ReverseInvolution(info.value.appEui);
      ReverseInvolution(info.value.devEui);
    }
  }

  /**
   The store keeps EUIs as the user typed them: re-encoding the stored bytes
   gives back the hex string (case folded), while the engine's copy is the
   reverse of it.
   */
  lemma OtaaStoredAsTyped(st: Store, rejects: set<Key>, appEui: string, devEui: string, appKey: string)
    ensures var r := Provision(st, rejects, appEui, devEui, appKey);
      r.ok ==>
        && EncodeHex(r.store[APPEUI].data) == CanonicalString(appEui[..16])
        && EncodeHex(r.store[DEVEUI].data) == CanonicalString(devEui[..16])
        && EncodeHex(r.store[APPKEY].data) == CanonicalString(appKey[..32])
  {
    if Provision(st, rejects, appEui, devEui, appKey).ok {
      EncodeDecode(8, appEui);
      EncodeDecode(8, devEui);
      EncodeDecode(16, appKey);
    }
  }

  /**
   After a `personalize` that returned `true`, the engine's ABP pull
   succeeds with the parsed keys, the big-endian DevAddr and NETID 0x13,
   and with the frame counters the store already held (0 where absent).
   */
  lemma AbpRoundTrip(st: Store, rejects: set<Key>, devAddr: string, nwkSKey: string, appSKey: string)
    ensures var r := Personalize(st, rejects, devAddr, nwkSKey, appSKey);
      r.ok ==>
        && AbpHexValid(devAddr, nwkSKey, appSKey)
        && GetAbpProvisioningInfo(r.store)
           == Some(AbpInfo(Parsed(nwkSKey, 16), Parsed(appSKey, 16), BigEndian32(Parsed(devAddr, 4)),
                           TTN_NETWORK_ID, CounterOrZero(st, FCNTUP), CounterOrZero(st, FCNTDN)))
  {
    var r := Personalize(st, rejects, devAddr, nwkSKey, appSKey);
    if r.ok {
      assert Agree(st, r.store, FCNTUP) && Agree(st, r.store, FCNTDN);
    }
  }

  /** The stored DevAddr, written back out in network order, spells the hex
      the user typed (case folded). */
  lemma DevAddrStoredAsTyped(st: Store, rejects: set<Key>, devAddr: string, nwkSKey: string, appSKey: string)
    ensures var r := Personalize(st, rejects, devAddr, nwkSKey, appSKey);
      r.ok ==> EncodeHex(NetworkBytes(r.store[DEVADDR].w)) == CanonicalString(devAddr[..8])
  {
    if Personalize(st, rejects, devAddr, nwkSKey, appSKey).ok {
      NetworkBytesOfValue(Parsed(devAddr, 4));
      EncodeDecode(4, devAddr);
    }
  }

  /**
   Frame counters are best effort in the ABP pull: with both counters
   removed from the store the answer is the same, with both counters 0.
   */
  lemma AbpCountersBestEffort(st: Store)
    ensures var r := GetAbpProvisioningInfo(st);
      var r0 := GetAbpProvisioningInfo(st - {FCNTUP, FCNTDN});
      && (r0.Some? <==> r.Some?)
      && (r0.Some? ==> r0.value == r.value.(fCntUp := 0, fCntDown := 0))
  {
  }
}

=== FILE: session.dfy ===
/**
 Session persistence (src/LoraStack.cpp): the engine pushes its session with
 `NetSaveSessionInfo` after a join, pulls it back with `GetSavedSessionInfo`,
 and reports every accepted frame's counter through `NetSaveFCntUp` and
 `NetSaveFCntDown`, the single-key fast path.
 */
module Session {
  import opened Types
  import opened ParameterStore

  /** `kSessionInfoTag_V1` of the engine's session layout. */
  const SESSION_TAG_V1: uint8 := 0x01

  /** `sizeof(SessionInfoV1)`: four one-byte header fields, NetID, DevAddr,
      two 16-byte keys and two 32-bit counters. */
  const SESSION_SIZE_V1: uint8 := (4 * 1 + 4 + 4 + 16 + 16 + 4 + 4) as uint8

  /** `SessionInfoV1`: a tagged, sized header then the persisted fields. */
  datatype SessionInfo = SessionInfo(
    tag: uint8, size: uint8, rsv2: uint8, rsv3: uint8,
    netId: uint32, devAddr: uint32, nwkSKey: Bytes16, appSKey: Bytes16,
    fCntUp: uint32, fCntDown: uint32)

  /** The header names the layout this code knows. */
  predicate SchemaOk(s: SessionInfo) {
    s.tag == SESSION_TAG_V1 && s.size == SESSION_SIZE_V1
  }

  /** The six keys a session occupies. */
  const SessionKeys: set<Key> := {NETID, DEVADDR, NWKSKEY, APPSKEY, FCNTUP, FCNTDN}

  /** The writes of a session save, in the order the firmware issues them. */
  function SessionWrites(s: SessionInfo): (ws: seq<(Key, Value)>)
    ensures |ws| == 6 && DistinctKeys(ws) && KeysOf(ws) == SessionKeys
  {
    var ws := [(NETID, Word(s.netId)), (DEVADDR, Word(s.devAddr)), (NWKSKEY, Blob(s.nwkSKey)),
               (APPSKEY, Blob(s.appSKey)), (FCNTUP, Word(s.fCntUp)), (FCNTDN, Word(s.fCntDown))];
    assert ws[0].0 == NETID && ws[1].0 == DEVADDR && ws[2].0 == NWKSKEY;
    assert ws[3].0 == APPSKEY && ws[4].0 == FCNTUP && ws[5].0 == FCNTDN;
    ws
  }

  /**
   `NetSaveSessionInfo`: a session whose tag or size is not the V1 schema is
   not written at all. Otherwise NETID, DEVADDR, NWKSKEY, APPSKEY, FCNTUP and
   FCNTDN are written in that order, stopping at the first refused write.
   */
  function NetSaveSessionInfo(st: Store, rejects: set<Key>, s: SessionInfo): (r: Store)
    ensures !SchemaOk(s) ==> r == st
    ensures forall k :: k !in SessionKeys ==> Agree(st, r, k)
    ensures SchemaOk(s) ==> forall i :: 0 <= i < Landed(SessionWrites(s), rejects) ==>
      var w := SessionWrites(s)[i]; w.0 in r && r[w.0] == w.1
    ensures SchemaOk(s) ==> forall i :: Landed(SessionWrites(s), rejects) <= i < 6 ==>
      Agree(st, r, SessionWrites(s)[i].0)
  {
    if s.tag != SESSION_TAG_V1 then st
    else if s.size != SESSION_SIZE_V1 then st
    else WriteUntilFailure(st, rejects, SessionWrites(s))
  }

  /**
   `GetSavedSessionInfo`: the header is filled with the V1 constants, then
   the six keys are read in save order; the first read that does not
   succeed makes the answer `false`.
   */
  function GetSavedSessionInfo(st: Store): (r: Option<SessionInfo>)
    ensures r.Some? <==>
      && GetWord(st, NETID).Some? && GetWord(st, DEVADDR).Some?
      && GetBlob(st, NWKSKEY, 16).Some? && GetBlob(st, APPSKEY, 16).Some?
      && GetWord(st, FCNTUP).Some? && GetWord(st, FCNTDN).Some?
    ensures r.Some? ==> SchemaOk(r.value) && r.value.rsv2 == 0 && r.value.rsv3 == 0
    ensures r.Some? ==>
      && r.value.netId == st[NETID].w && r.value.devAddr == st[DEVADDR].w
      && r.value.nwkSKey == st[NWKSKEY].data && r.value.appSKey == st[APPSKEY].data
      && r.value.fCntUp == st[FCNTUP].w && r.value.fCntDown == st[FCNTDN].w
  {
    var netId :- GetWord(st, NETID);
    var devAddr :- GetWord(st, DEVADDR);
    var nwkSKey :- GetBlob(st, NWKSKEY, 16);
    var appSKey :- GetBlob(st, APPSKEY, 16);
    var fCntUp :- GetWord(st, FCNTUP);
    var fCntDown :- GetWord(st, FCNTDN);
    Some(SessionInfo(SESSION_TAG_V1, SESSION_SIZE_V1, 0, 0,
                     netId, devAddr, nwkSKey, appSKey, fCntUp, fCntDown))
  }

  /** `NetSaveFCntUp`: one `set` of FCNTUP; a refusal is only logged. */
  function NetSaveFCntUp(st: Store, rejects: set<Key>, v: uint32): (r: Store)
    ensures FCNTUP !in rejects ==> FCNTUP in r && r[FCNTUP] == Word(v)
    ensures FCNTUP in rejects ==> r == st
    ensures forall k :: k != FCNTUP ==> Agree(st, r, k)
  {
    Set(st, rejects, FCNTUP, Word(v)).store
  }

  /** `NetSaveFCntDown`: one `set` of FCNTDN; a refusal is only logged. */
  function NetSaveFCntDown(st: Store, rejects: set<Key>, v: uint32): (r: Store)
    ensures FCNTDN !in rejects ==> FCNTDN in r && r[FCNTDN] == Word(v)
    ensures FCNTDN in rejects ==> r == st
    ensures forall k :: k != FCNTDN ==> Agree(st, r, k)
  {
    Set(st, rejects, FCNTDN, Word(v)).store
  }

  /**
   A save that no write refused is read back whole: every persisted field
   equals the saved one and the header carries the V1 constants, so the
   reserved bytes read as 0.
   */
  lemma SessionRoundTrip(st: Store, rejects: set<Key>, s: SessionInfo)
    requires SchemaOk(s) && SessionKeys !! rejects
    ensures GetSavedSessionInfo(NetSaveSessionInfo(st, rejects, s)) == Some(s.(rsv2 := 0, rsv3 := 0))
  {
  }

  /** A session rejected for its header leaves the store, and so the next
      load, as they were. */
  lemma SchemaMismatchKeepsLoad(st: Store, rejects: set<Key>, s: SessionInfo)
    requires !SchemaOk(s)
    ensures GetSavedSessionInfo(NetSaveSessionInfo(st, rejects, s)) == GetSavedSessionInfo(st)
  {
  }

  /**
   The session a load returns after a save that stopped after `n` writes:
   the first `n` fields in save order come from the new session `s`, the
   others from the previously stored session `o`.
   */
  function Mixed(o: SessionInfo, s: SessionInfo, n: nat): SessionInfo {
    o.(netId := if n > 0 then s.netId else o.netId,
       devAddr := if n > 1 then s.devAddr else o.devAddr,
       nwkSKey := if n > 2 then s.nwkSKey else o.nwkSKey,
       appSKey := if n > 3 then s.appSKey else o.appSKey,
       fCntUp := if n > 4 then s.fCntUp else o.fCntUp,
       fCntDown := if n > 5 then s.fCntDown else o.fCntDown)
  }

  /**
   The risk the firmware accepts on a partial save: if a complete session
   was stored before, a save that stops early is read back as valid, made of
   the new session's fields up to the refused write and the old ones after.
   */
  lemma PartialSaveMixesSessions(st: Store, rejects: set<Key>, s: SessionInfo)
    requires SchemaOk(s) && GetSavedSessionInfo(st).Some?
    ensures GetSavedSessionInfo(NetSaveSessionInfo(st, rejects, s))
      == Some(Mixed(GetSavedSessionInfo(st).value, s, Landed(SessionWrites(s), rejects)))
  {
  }

  /** `k` holds a value of the shape a session load reads it with. */
  predicate Loadable(st: Store, k: Key) {
    if k == NWKSKEY || k == APPSKEY then GetBlob(st, k, 16).Some? else GetWord(st, k).Some?
  }

  /**
   Whether a save is read back at all: after a save of a V1 session, the next
   load fails exactly when one of the keys the save did not reach (the
   refused one and those after it) was not loadable in the store before.
   */
  lemma {:induction false} SaveLoadsIff(st: Store, rejects: set<Key>, s: SessionInfo)
    requires SchemaOk(s)
    ensures var ws := SessionWrites(s);
      GetSavedSessionInfo(NetSaveSessionInfo(st, rejects, s)).None?
      <==> exists i :: Landed(ws, rejects) <= i < 6 && !Loadable(st, ws[i].0)
  {
    var ws := SessionWrites(s);
    var n := Landed(ws, rejects);
    var r := NetSaveSessionInfo(st, rejects, s);
    forall i | 0 <= i < 6
      ensures Loadable(r, ws[i].0) <==> i < n || Loadable(st, ws[i].0)
    {
      if i >= n {
        assert Agree(st, r, ws[i].0);
      }
    }
    assert ws[0].0 == NETID && ws[1].0 == DEVADDR && ws[2].0 == NWKSKEY;
    assert ws[3].0 == APPSKEY && ws[4].0 == FCNTUP && ws[5].0 == FCNTDN;
  }

  /**
   On a store holding none of the six session keys, a save that stops early
   is never read back as a session: the key of the refused write is still
   missing.
   */
  lemma PartialSaveOnEmptyFailsClosed(st: Store, rejects: set<Key>, s: SessionInfo)
    requires SessionKeys !! st.Keys
    requires !(SessionKeys !! rejects)
    ensures GetSavedSessionInfo(NetSaveSessionInfo(st, rejects, s)).None?
  {
  }

  /**
   The frame-counter fast path as the next session load sees it: the up
   counter reads as the saved value and every other field as before.
   */
  lemma FCntUpReflectedInSession(st: Store, rejects: set<Key>, v: uint32)
    requires FCNTUP !in rejects && GetSavedSessionInfo(st).Some?
    ensures GetSavedSessionInfo(NetSaveFCntUp(st, rejects, v))
      == Some(GetSavedSessionInfo(st).value.(fCntUp := v))
  {
  }

  /** The same for the down counter. */
  lemma FCntDownReflectedInSession(st: Store, rejects: set<Key>, v: uint32)
    requires FCNTDN !in rejects && GetSavedSessionInfo(st).Some?
    ensures GetSavedSessionInfo(NetSaveFCntDown(st, rejects, v))
      == Some(GetSavedSessionInfo(st).value.(fCntDown := v))
  {
  }
}

=== FILE: types.dfy ===
/**
 Machine integer widths of the LoraStack firmware and a fail-fast Option.

 The firmware works on `uint8_t` buffers and `uint32_t` scalars; Dafny's
 integers are unbounded, so both widths are explicit newtypes here.
 */
module Types {

  newtype uint8 = x: int | 0 <= x < 0x100

  newtype uint32 = x: int | 0 <= x < 0x1_0000_0000

  /** A fixed-size byte field: EUIs are 8 bytes, keys 16, a DevAddr 4. */
  type Bytes4 = s: seq<uint8> | |s| == 4 witness [0, 0, 0, 0]

  type Bytes8 = s: seq<uint8> | |s| == 8 witness [0, 0, 0, 0, 0, 0, 0, 0]

  type Bytes16 = s: seq<uint8> | |s| == 16
    witness [0, 0, 0, 0, 0, 0, 0, 0, 0, 0, 0, 0, 0, 0, 0, 0]

  /** An optional value; `:-` stops at the first `None`, the way the firmware
      returns `false` at the first store read that does not succeed. */
  datatype Option<+T> = None | Some(value: T) {

    predicate IsFailure() {
      None?
    }

    function PropagateFailure<U>(): Option<U>
      requires None?
    {
      None
    }

    function Extract(): T
      requires Some?
    {
      value
    }
  }
}
